=== FILE: README.md ===
# stringtable in Dafny

A model of the table transforms of the Go package `stringtable`. A table is a
sequence of rows of text fields. Row 0 is the header that names the columns,
and by convention every row has the header's width ("rectangular"). The
package offers seven operations, all modelled here as pure functions over
`seq<seq<string>>`, except `Equal`, which is a method that keeps the source's
two nested loops:

- `Append` adds another table's data rows below the receiver.
- `AddColumns` extends rows side by side, matching them by position.
- `Colmap` builds the map from header name to column position.
- `Filter` keeps the data rows that pass a caller's predicate.
- `LeftJoin` is a left outer join on key column 0.
- `Select` projects the table onto named columns.
- `Equal` compares two tables field by field.

Modules:

- `Results`: `Result` (success value or error value).
- `Tables`: the `Row`, `Table` and `ColumnIndices` types, the shape predicates
  (`Rectangular`, `WideRows`, `KeyedData`) and the shared scans
  (`FirstIndexOf`, `LastIndexOf`, and `LastWins`, the last-write-wins map).
  It also holds `ConcatAssociative`, a sequence fact that the solver needs
  stated as a hint.
- `Concat`: `Append` and `AddColumns`.
- `Filtering`: `Colmap` and `Filter`.
- `Join`: `LeftJoin`. `LastKeyRow` is a plain back-to-front scan used as the
  reference for the join's lookup map.
- `Selection`: `Select`.
- `Equality`: `Equal`. The ghost predicate `SameFields` states its verdict.
- `Examples`: the concrete cases of `table_test.go`.

Design choices:

- `Append` stops the process on a width mismatch. Here that outcome is the
  error value `WidthMismatch(leftWidth, rightWidth)`.
- `Select` reports a missing column as the error value
  `ColumnNotFound(name)`. The name is that of the first missing requested
  column.
- Where the source would panic, the model has a precondition instead. Those
  cases are indexing row 0 of an empty table, slicing `right[0][1:]` of an
  empty header, reading the key of a data row that has no fields, and
  indexing past a short row in `Select` or `Equal`. The preconditions of
  `Select` and `Equal` are broader than the panics they stand for; "Left
  out" names the inputs they exclude that the source would handle.
- The filter predicate is a Dafny function value of type
  `(Row, ColumnIndices) -> bool`.

Points of `table.go` behaviour worth noting:

- `AddColumns` pads the rows past the end of a short added table with
  `len(columns[0])` blank fields (table.go:137), the full header width of the
  added table.
- `Equal`'s result flag starts as `false` (table.go:243) and then holds the
  outcome of the last field comparison made (table.go:256). So a non-empty
  table whose rows have no fields compares unequal even to itself
  (`Equality.ZeroWidthUnequal`).
- `LeftJoin`'s doc comment says that it mutates the receiver
  (table.go:176-178). In the model every operation returns a new value. See
  "Left out".

## Model

| member | source | states |
|---|---|---|
| Concat.Append | table.go:119-130 | Onto an empty table the result is the argument itself. Otherwise it fails, naming both widths, exactly when the header widths differ. On success the result is the receiver followed by the argument's data rows, so its row count is len(m) + len(a) - 1 and its header is the receiver's header. |
| Concat.AppendRectangular | table.go:119-129 | Appending two rectangular tables gives a rectangular table with the common width. |
| Concat.AppendAssociative | table.go:120-129 | For non-empty tables, (a.Append(b)).Append(c) and a.Append(b.Append(c)) fail together. When they succeed, both equal a's rows followed by the data rows of b and then of c. |
| Concat.AddColumns | table.go:135-150 | The row count is the receiver's. Row i is m[i] ++ columns[i] while i < len(columns). Past that, row i is m[i] followed by len(columns[0]) blank fields. Extra rows of columns are ignored. |
| Concat.ExtendRows | table.go:141-147 | The loop over the receiver's rows keeps the row count. Row i becomes rows[i] followed by columns[i] while i < len(columns), and rows[i] followed by the filler after that. |
| Concat.AddColumnsShape | table.go:137-147 | Each result row begins with the receiver's row unchanged and adds exactly len(columns[0]) fields when columns is rectangular. So rectangular inputs give a rectangular result. |
| Filtering.Colmap | table.go:155-161 | The domain is exactly the set of header names. Each name maps to an index below the header width whose header cell is that name, and no later header cell carries the name: the last occurrence wins. |
| Filtering.KeepRows | table.go:168-172 | Every kept row passes the predicate under the given column index. Each row value occurs among the kept rows exactly as often as among the input rows if it passes, and not at all otherwise. |
| Filtering.Filter | table.go:164-174 | Row 0 of the result is the header unchanged. Every later row passes the predicate, given the Colmap of the header. Each row value occurs among the kept rows exactly as often as among the data rows if it passes, and not at all otherwise. |
| Filtering.KeepRowsConcat | table.go:168-172 | Row filtering splits over concatenation, so the kept rows keep their original relative order. |
| Filtering.FilterKeepsAll | table.go:165-173 | A predicate that every data row passes, such as an always-true one, returns the input table itself. |
| Filtering.FilterIdempotent | table.go:165-173 | Filtering twice with the same predicate equals filtering once. |
| Filtering.FilterDistributesOverAppend | table.go:164-174 | For two tables with the same header, filtering their Append equals appending their filtered versions. So the kept rows of the first table precede those of the second, each in its original order. |
| Filtering.ColmapOfHeader | table.go:155-161 | Colmap depends on the header row alone, so tables with one header share one Colmap. |
| Filtering.FilterRectangular | table.go:164-174 | Filtering a rectangular table yields a rectangular table. |
| Tables.FirstIndexOf | table.go:211-220 | The scan gives -1 exactly when the name is absent. Otherwise it gives the position of the name, with no earlier position holding it: the first match wins. |
| Tables.LastIndexOf | table.go:157-159 | The result is -1 exactly when the value is absent. Otherwise it is a position holding the value, with no later position holding it. |
| Tables.LastWins | table.go:187-190 | The map built by writing keys[i] := vals[i] in order has exactly the keys as domain. Each key maps to the value paired with its last occurrence. |
| Join.KeyIndex | table.go:187-190 | A key is in the lookup map exactly when some data row of the right table has it. It then maps to the non-key fields of the last such row. |
| Join.LastKeyRowIsLastIndex | table.go:187-190 | The reference back-to-front scan of the right table's data rows finds the same row as the last-write position in the key column. |
| Join.LastKeyRow | table.go:187-190 | The reference scan gives 0 exactly when no data row of the right table has the key. Otherwise it gives a data row with that key, and no later data row has it. |
| Join.JoinRows | table.go:193-203 | The loop over the left data rows keeps the row count. Each row is extended by the looked-up fields of its key when the key is in the map, and by the filler when it is not. |
| Join.LeftJoin | table.go:180-205 | The row count is the left table's, and the header is left[0] ++ right[0][1..]. A data row whose key occurs in the right data rows is extended by the non-key fields of the last such right row. Any other data row is extended by len(right[0]) - 1 blank fields. |
| Join.LeftJoinRectangular | table.go:182-203 | Joining rectangular tables gives a rectangular table of width len(left[0]) + len(right[0]) - 1. |
| Join.LeftJoinUniqueKeys | table.go:176-203 | When the right keys are unique, a left row that shares its key with right row j gains exactly right row j's non-key fields. A left row whose key is absent gains blanks. |
| Selection.Resolve | table.go:210-225 | Resolution succeeds exactly when every requested name is in the header, and each name then resolves to its first header position. On failure, the error names a requested name that the header lacks, and every name requested before it is present. |
| Selection.Project | table.go:229-235 | The projected row is as long as the index list, and field k is the source row's field at indices[k]. |
| Selection.Select | table.go:208-237 | Select fails exactly when some requested name is absent from the header, and it reports the first such name. On success the header is the requested list and the row count is preserved. Cell (i, k) is the source cell of row i at the first header position named columns[k]. |
| Selection.SelectRectangular | table.go:227-235 | A successful selection is rectangular, with the width of the requested list. |
| Selection.SelectHeaderIdentity | table.go:208-237 | Take a rectangular table with distinct header names. Selecting its header in order returns the table itself. |
| Selection.SelectReversed | table.go:208-237 | Take a rectangular table with distinct header names. Selecting its header back to front returns the table with every row reversed. |
| Selection.ReversedSelectionUnequal | table.go:208-237 | With two or more distinct names, the reversed selection does not compare Equal to the in-order selection. |
| Selection.SelectAfterAddColumns | table.go:214-219 | Take a rectangular receiver with distinct header names and a rectangular added table. Selecting the receiver's header after AddColumns returns the receiver, whatever names the added columns carry, because the first match wins. |
| Selection.ColmapAgreesWithSelect | table.go:155-161 | When the header has no repeated names, Colmap and Select resolve every name to the same column. |
| Equality.Equal | table.go:243-263 | The result is true exactly when all of these hold: the row counts are equal, the row-0 widths are equal, at least one field exists, and every field of the receiver equals the field at the same position of the other table. Fields of the other table beyond the receiver's row width are not compared. |
| Equality.SameFieldsIffIdentical | table.go:252-262 | Take rectangular tables of equal shape with at least one column. Equal holds exactly when the tables are identical, so it is reflexive on them. |
| Equality.ZeroWidthUnequal | table.go:243-262 | A non-empty rectangular table of width 0 is not Equal to itself, because the result flag starts false. |
| Equality.ChangedFieldUnequal | table.go:254-261 | Changing any single field makes the table compare unequal to the original, in either argument order. |
| Equality.ShapeMismatchUnequal | table.go:245-250 | Different row counts or header widths make Equal false, whatever the fields. |
| Examples.AppendExample | table_test.go:27-51 | The test's Append case and its empty-receiver case, plus a width mismatch. |
| Examples.ColmapExample | table_test.go:54-63 | The test header a,b maps a to 0 and b to 1. |
| Examples.RepeatedNameExample | table.go:155-161 | For the header a,a, Colmap maps a to 1 while Select takes column 0. |
| Examples.FilterExample | table_test.go:65-81 | The test filter on column a = "1" keeps rows 1,2 and 1,5. |
| Examples.LeftJoinExample | table_test.go:83-122 | The test's join: duplicate left keys each match, and key three gets two blanks. |
| Examples.AddColumnsExample | table_test.go:124-160 | The test's two AddColumns cases, including the blank filler row. |
| Examples.EqualExample | table_test.go:136-142 | The test table equals itself and differs from the widened table. |
| Examples.SelectExample | table_test.go:170-189 | The test's in-order selection of data2,data3. |
| Examples.SelectReversedExample | table_test.go:191-210 | The test's reversed selection of data3,data2. |
| Examples.SelectMissingExample | table.go:221-224 | Requesting data2,nope,gone fails, naming nope. |

## Left out

- ReadCSV, ReadCSVTrim and WriteCSV (table.go:63-111) are not modelled. They
  are file I/O through `os` and `encoding/csv`, and the trimming uses Unicode
  `strings.TrimSpace`.
- The process termination by `log.Fatalf` in Append is modelled as the
  `WidthMismatch` error value. The log message is not.
- In-place mutation and slice aliasing are not modelled. In the source,
  LeftJoin overwrites the receiver's rows in place (table.go:183,198,201).
  Append's result may share storage with either argument: on an empty
  receiver it is the argument itself (table.go:127), and otherwise `append`
  reuses the receiver's backing array when it has room (table.go:125).
  `append` in AddColumns can likewise share a row's backing array. Every
  operation here returns a new value. A caller that keeps a reference to an
  argument may observe changes in the source but never in the model.
- Panics are modelled as preconditions, not as behaviour.
- Equality.Equal: the precondition asks that every row of the receiver fits
  the row of the other table whenever the row counts and header widths match.
  The source only panics if its loop reaches such a short row before it finds
  a differing field.
- Selection.Select: the precondition asks that every data row be at least as
  wide as the header. The source needs less. When a requested name is
  missing it returns before it reads any data row. On success it reads only
  the resolved positions (table.go:232), so a data row narrower than the
  header but wide enough for those positions is projected without a panic:
  for example `[["a","b"],["1"]]` with the request `a` gives
  `[["a"],["1"]]`. Such tables break the rectangular convention of the
  Table type (table.go:9), and the model does not accept them.
- Filtering.Filter: the contract states the kept rows as a multiset. The
  order of the kept rows is stated separately, by Filtering.KeepRowsConcat
  and Filtering.FilterDistributesOverAppend.
- Filtering.KeepRows: the contract states the kept rows as a multiset. The
  order of the kept rows is stated separately, by Filtering.KeepRowsConcat.
- Filter predicates are modelled as total, side-effect-free functions of
  type `(Row, ColumnIndices) -> bool`. In the source the predicate is a Go
  closure: it may panic, for example on a row shorter than the column it
  reads, and it may change the single column map that every call receives
  (table.go:167-169), which later calls would then see.

=== FILE: concat.dfy ===
/** Vertical (Append) and horizontal, positional (AddColumns) concatenation of tables. */
module Concat {
  import opened Results
  import opened Tables

  /** Append's fatal path: the header width of the receiver, then of the appended table. */
  datatype AppendError = WidthMismatch(leftWidth: nat, rightWidth: nat)

  /**
    Appends the data rows of `a` to `m`. An empty `m` is replaced by `a`
    outright; otherwise only the header widths are compared, never the header
    names, and `a`'s header is dropped. The source stops the process on a
    width mismatch; here that is the error value.
   */
  function Append(m: Table, a: Table): (r: Result<Table, AppendError>)
    requires |m| > 0 ==> |a| > 0
    ensures |m| == 0 ==> r == Success(a)
    ensures |m| > 0 ==> (r.Failure? <==> |m[0]| != |a[0]|)
    ensures |m| > 0 && r.Failure? ==> r.error == WidthMismatch(|m[0]|, |a[0]|)
    ensures |m| > 0 && r.Success? ==>
              && |r.value| == |m| + |a| - 1
              && r.value[0] == m[0]
              && (forall i :: 0 <= i < |m| ==> r.value[i] == m[i])
              && (forall i :: 1 <= i < |a| ==> r.value[|m| + i - 1] == a[i])
  {
    if |m| > 0 then
      if |m[0]| != |a[0]| then Failure(WidthMismatch(|m[0]|, |a[0]|))
      else Success(m + a[1..])
    else
      Success(a)
  }

  /** Appending two rectangular tables of one width gives a rectangular table of that width. */
  lemma AppendRectangular(m: Table, a: Table)
    requires Rectangular(m) && Rectangular(a)
    requires |m| > 0 ==> |a| > 0
    ensures Append(m, a).Success? ==> Rectangular(Append(m, a).value)
    ensures |m| > 0 && Append(m, a).Success? ==> |Append(m, a).value[0]| == |a[0]|
  {
  }

  /**
    Appending is associative on non-empty tables: both groupings fail together
    and, when they succeed, give the first header followed by all data rows in order.
   */
  lemma AppendAssociative(a: Table, b: Table, c: Table)
    requires |a| > 0 && |b| > 0 && |c| > 0
    ensures Append(a, b).Success? && Append(Append(a, b).value, c).Success?
        <==> Append(b, c).Success? && Append(a, Append(b, c).value).Success?
    ensures Append(a, b).Success? && Append(Append(a, b).value, c).Success? ==>
              Append(Append(a, b).value, c).value == Append(a, Append(b, c).value).value
              == a + b[1..] + c[1..]
  {
  }

  /**
    The rows of `rows`, each extended by the row of `columns` at the same
    position, or by `filler` past the end of `columns`.
   */
  function ExtendRows(rows: Table, columns: Table, filler: Row): (r: Table)
    ensures |r| == |rows|
    ensures forall i :: 0 <= i < |rows| ==>
              r[i] == rows[i] + (if i < |columns| then columns[i] else filler)
  {
    if |rows| == 0 then []
    else
      var i := |rows| - 1;
      ExtendRows(rows[..i], columns, filler) + [rows[i] + (if i < |columns| then columns[i] else filler)]
  }

  /**
    Extends every row of `m` with the row of `columns` at the same position;
    rows of `m` past the end of `columns` get as many blank fields as the
    header of `columns` is wide. Extra rows of `columns` are ignored.
   */
  function AddColumns(m: Table, columns: Table): (r: Table)
    requires |columns| > 0
    ensures |r| == |m|
    ensures forall i :: 0 <= i < |m| && i < |columns| ==> r[i] == m[i] + columns[i]
    ensures forall i :: |columns| <= i < |m| ==> r[i] == m[i] + Blank(|columns[0]|)
  {
    ExtendRows(m, columns, Blank(|columns[0]|))
  }

  /**
    Each row of the result starts with the receiver's row and then holds
    exactly as many added fields as the added table's header is wide, when
    that table is rectangular; so rectangular inputs give a rectangular result.
   */
  lemma AddColumnsShape(m: Table, columns: Table)
    requires |columns| > 0 && Rectangular(columns)
    ensures forall i :: 0 <= i < |m| ==>
              && |AddColumns(m, columns)[i]| == |m[i]| + |columns[0]|
              && AddColumns(m, columns)[i][..|m[i]|] == m[i]
    ensures Rectangular(m) ==> Rectangular(AddColumns(m, columns))
  {
  }

}

=== FILE: equality.dfy ===
/** Field-by-field comparison of two tables. */
module Equality {
  import opened Tables

  /** Some row of t has at least one field. */
  predicate HasField(t: Table) {
    exists i :: 0 <= i < |t| && |t[i]| > 0
  }

  /** Every data row of `m` is no wider than the row of `right` at the same position. */
  predicate FieldsFit(m: Table, right: Table)
    requires |m| == |right|
  {
    forall i :: 0 <= i < |m| ==> |m[i]| <= |right[i]|
  }

  /**
    What Equal reports: equal row counts, equal header widths, at least one
    field compared, and every field of `m` equal to the field of `right` at
    the same position. The verdict is the outcome of the last comparison made,
    which starts out false, so tables without a single field compare unequal.
   */
  ghost predicate SameFields(m: Table, right: Table) {
    && |m| == |right|
    && |m| > 0
    && |m[0]| == |right[0]|
    && HasField(m)
    && forall i, j :: 0 <= i < |m| && 0 <= j < |m[i]| ==> j < |right[i]| && m[i][j] == right[i][j]
  }

  /**
    Compares row counts, then header widths, then every field of `m`, row by
    row, against `right`, returning at the first difference.
   */
  method Equal(m: Table, right: Table) returns (ok: bool)
    requires |m| > 0 || |right| > 0
    requires |m| == |right| && |m[0]| == |right[0]| ==> FieldsFit(m, right)
    ensures ok <==> SameFields(m, right)
  {
    if |m| != |right| {
      return false;
    }
    if |m[0]| != |right[0]| {
      return false;
    }
    ok := false;
    var i := 0;
    while i < |m|
      invariant 0 <= i <= |m|
      invariant ok <==> exists a :: 0 <= a < i && |m[a]| > 0
      invariant forall a, b :: 0 <= a < i && 0 <= b < |m[a]| ==> m[a][b] == right[a][b]
    {
      var j := 0;
      while j < |m[i]|
        invariant 0 <= j <= |m[i]|
        invariant ok <==> (0 < j || exists a :: 0 <= a < i && |m[a]| > 0)
        invariant forall b :: 0 <= b < j ==> m[i][b] == right[i][b]
      {
        ok := m[i][j] == right[i][j];
        if !ok {
          return;
        }
        j := j + 1;
      }
      i := i + 1;
    }
  }

  /**
    On rectangular tables of one shape with at least one column, Equal holds
    exactly when the tables are identical; in particular it is reflexive there.
   */
  lemma SameFieldsIffIdentical(m: Table, right: Table)
    requires Rectangular(m) && Rectangular(right)
    requires |m| == |right| > 0 && |m[0]| == |right[0]| >= 1
    ensures SameFields(m, right) <==> m == right
  {
    assert |m[0]| > 0;
    if SameFields(m, right) {
      forall i | 0 <= i < |m|
        ensures m[i] == right[i]
      {
        assert |m[i]| == |right[i]|;
      }
    }
  }

  /** The kept quirk: a non-empty table whose rows have no fields is not equal even to itself. */
  lemma ZeroWidthUnequal(m: Table)
    requires Rectangular(m) && |m| > 0 && |m[0]| == 0
    ensures !SameFields(m, m)
  {
  }

  /** Changing any single field of a table makes it compare unequal to the original. */
  lemma ChangedFieldUnequal(m: Table, i: nat, j: nat, v: string)
    requires |m| > 0 && i < |m| && j < |m[i]| && m[i][j] != v
    ensures !SameFields(m, m[i := m[i][j := v]])
    ensures !SameFields(m[i := m[i][j := v]], m)
  {
  }

  /** Tables of different row counts or header widths compare unequal, whatever their fields. */
  lemma ShapeMismatchUnequal(m: Table, right: Table)
    requires |m| != |right| || (|m| > 0 && |right| > 0 && |m[0]| != |right[0]|)
    ensures !SameFields(m, right)
  {
  }

}

=== FILE: examples.dfy ===
/** The concrete cases of the repository's test file, stated about the model. */
module Examples {
  import opened Results
  import opened Tables
  import Concat
  import Filtering
  import Join
  import Selection
  import Equality

  lemma AppendExample()
    ensures Concat.Append([["one", "two"], ["1", "2"]], [["one", "two"], ["1", "2"]])
         == Success([["one", "two"], ["1", "2"], ["1", "2"]])
    ensures Concat.Append([], [["one", "two"], ["1", "2"], ["1", "2"]])
         == Success([["one", "two"], ["1", "2"], ["1", "2"]])
    ensures Concat.Append([["one", "two"]], [["one"], ["1"]]) == Failure(Concat.WidthMismatch(2, 1))
  {
    var a: Table := [["one", "two"], ["1", "2"]];
    assert a + a[1..] == [["one", "two"], ["1", "2"], ["1", "2"]];
  }

  lemma ColmapExample()
    ensures Filtering.Colmap([["a", "b"], ["1", "2"], ["3", "4"], ["1", "5"]]) == map["a" := 0, "b" := 1]
  {
  }

  /** A repeated header name: Colmap keeps the last column, Select takes the first. */
  lemma RepeatedNameExample()
    ensures Filtering.Colmap([["a", "a"], ["x", "y"]])["a"] == 1
    ensures Selection.Select([["a", "a"], ["x", "y"]], ["a"]) == Success([["a"], ["x"]])
  {
    var m: Table := [["a", "a"], ["x", "y"]];
    assert FirstIndexOf(m[0], "a") == 0;
    Selection.SelectIs(m, ["a"], [["a"], ["x"]]);
  }

  /** The test's filter: keep the rows whose column "a" holds "1"; a missing name reads as column 0. */
  function ColumnAIsOne(row: Row, c: ColumnIndices): bool {
    var k := if "a" in c then c["a"] else 0;
    0 <= k < |row| && row[k] == "1"
  }

  lemma FilterExample()
    ensures Filtering.Filter([["a", "b"], ["1", "2"], ["3", "4"], ["1", "5"]], ColumnAIsOne)
         == [["a", "b"], ["1", "2"], ["1", "5"]]
  {
    var m: Table := [["a", "b"], ["1", "2"], ["3", "4"], ["1", "5"]];
    var c := Filtering.Colmap(m);
    ColmapExample();
    var rows: Table := [["1", "2"], ["3", "4"], ["1", "5"]];
    assert m[1..] == rows;
    assert ColumnAIsOne(rows[0], c) && !ColumnAIsOne(rows[1], c) && ColumnAIsOne(rows[2], c);
    assert rows == [rows[0], rows[1]] + [rows[2]];
    Filtering.KeepRowsConcat([rows[0], rows[1]], [rows[2]], c, ColumnAIsOne);
    assert [rows[0], rows[1]] == [rows[0]] + [rows[1]];
    Filtering.KeepRowsConcat([rows[0]], [rows[1]], c, ColumnAIsOne);
  }

  const JoinLeft: Table :=
    [["queue", "data1"], ["one", "1"], ["two", "2"], ["one", "11"], ["one", "111"], ["two", "22"], ["three", "3"]]
  const JoinRight: Table :=
    [["queue", "data2", "data3"], ["one", "d2", "d3"], ["two", "t2", "t3"]]

  lemma JoinRightKeys()
    ensures Join.LastKeyRow(JoinRight, "one") == 1
    ensures Join.LastKeyRow(JoinRight, "two") == 2
    ensures Join.LastKeyRow(JoinRight, "three") == 0
  {
  }

  const JoinExpected: Table :=
    [["queue", "data1", "data2", "data3"],
     ["one", "1", "d2", "d3"],
     ["two", "2", "t2", "t3"],
     ["one", "11", "d2", "d3"],
     ["one", "111", "d2", "d3"],
     ["two", "22", "t2", "t3"],
     ["three", "3", "", ""]]

  /** One data row of the joined test tables. */
  lemma LeftJoinExampleRow(i: nat)
    requires 1 <= i < |JoinLeft|
    ensures Join.LeftJoin(JoinLeft, JoinRight)[i] == JoinExpected[i]
  {
    JoinRightKeys();
    assert Blank(2) == ["", ""];
    assert JoinLeft[i][0] in {"one", "two", "three"};
  }

  /** Duplicate left keys each find their right row; the unmatched key gets blanks. */
  lemma LeftJoinExample()
    ensures Join.LeftJoin(JoinLeft, JoinRight) == JoinExpected
  {
    var r := Join.LeftJoin(JoinLeft, JoinRight);
    assert r[0] == JoinExpected[0];
    forall i | 1 <= i < |r|
      ensures r[i] == JoinExpected[i]
    {
      LeftJoinExampleRow(i);
    }
  }

  lemma AddColumnsExample()
    ensures Concat.AddColumns([["AA", "BB"], ["1a", "1b"], ["2a", "2b"]], [["CC"], ["1c"], ["2c"]])
         == [["AA", "BB", "CC"], ["1a", "1b", "1c"], ["2a", "2b", "2c"]]
    ensures Concat.AddColumns([["AA", "BB"], ["1a", "1b"], ["2a", "2b"]], [["CC"], ["1b"]])
         == [["AA", "BB", "CC"], ["1a", "1b", "1b"], ["2a", "2b", ""]]
  {
    var m: Table := [["AA", "BB"], ["1a", "1b"], ["2a", "2b"]];
    var r1 := Concat.AddColumns(m, [["CC"], ["1c"], ["2c"]]);
    assert r1[0] == ["AA", "BB", "CC"];
    assert r1[1] == ["1a", "1b", "1c"];
    assert r1[2] == ["2a", "2b", "2c"];
    var r2 := Concat.AddColumns(m, [["CC"], ["1b"]]);
    assert Blank(1) == [""];
    assert r2[0] == ["AA", "BB", "CC"];
    assert r2[1] == ["1a", "1b", "1b"];
    assert r2[2] == ["2a", "2b", ""];
  }

  lemma EqualExample()
    ensures Equality.SameFields([["AA", "BB"], ["1a", "1b"], ["2a", "2b"]], [["AA", "BB"], ["1a", "1b"], ["2a", "2b"]])
    ensures !Equality.SameFields([["AA", "BB"], ["1a", "1b"], ["2a", "2b"]], [["AA", "BB", "CC"], ["1a", "1b", "1c"], ["2a", "2b", "2c"]])
  {
    var m: Table := [["AA", "BB"], ["1a", "1b"], ["2a", "2b"]];
    assert |m[0]| > 0;
    assert Equality.HasField(m);
  }

  const SelectTable: Table := [["queue", "data2", "data3"], ["one", "d2", "d3"], ["two", "t2", "t3"]]

  lemma SelectExample()
    ensures Selection.Select(SelectTable, ["data2", "data3"]) == Success([["data2", "data3"], ["d2", "d3"], ["t2", "t3"]])
  {
    assert FirstIndexOf(SelectTable[0], "data2") == 1;
    assert FirstIndexOf(SelectTable[0], "data3") == 2;
    Selection.SelectIs(SelectTable, ["data2", "data3"], [["data2", "data3"], ["d2", "d3"], ["t2", "t3"]]);
  }

  lemma SelectReversedExample()
    ensures Selection.Select(SelectTable, ["data3", "data2"]) == Success([["data3", "data2"], ["d3", "d2"], ["t3", "t2"]])
  {
    assert FirstIndexOf(SelectTable[0], "data2") == 1;
    assert FirstIndexOf(SelectTable[0], "data3") == 2;
    Selection.SelectIs(SelectTable, ["data3", "data2"], [["data3", "data2"], ["d3", "d2"], ["t3", "t2"]]);
  }

  /** The error names the first requested column that is missing. */
  lemma SelectMissingExample()
    ensures Selection.Select(SelectTable, ["data2", "nope", "gone"]) == Failure(Selection.ColumnNotFound("nope"))
  {
  }

}

=== FILE: filtering.dfy ===
/** The column index of a header (Colmap) and row selection by a caller's predicate (Filter). */
module Filtering {
  import opened Tables
  import Concat

  /** A caller's row test; it sees the row and the column index of the table's header. */
  type RowPredicate = (Row, ColumnIndices) -> bool

  /**
    Maps every header name to its column position. Names are not required to
    be unique: a repeated name maps to its last position.
   */
  function Colmap(m: Table): (c: ColumnIndices)
    requires |m| > 0
    ensures c.Keys == set name | name in m[0]
    ensures forall name :: name in c ==> 0 <= c[name] < |m[0]| && m[0][c[name]] == name
    ensures forall name, j :: name in c && c[name] < j < |m[0]| ==> m[0][j] != name
  {
    LastWins(m[0], seq(|m[0]|, j => j))
  }

  /** Colmap depends on the header alone. */
  lemma ColmapOfHeader(m: Table, n: Table)
    requires |m| > 0 && |n| > 0 && m[0] == n[0]
    ensures Colmap(m) == Colmap(n)
  {
  }

  /** The rows that pass `f`, in their original order. */
  function KeepRows(rows: Table, cmap: ColumnIndices, f: RowPredicate): (r: Table)
    ensures forall row :: row in r ==> f(row, cmap)
    ensures forall row :: multiset(r)[row] == if f(row, cmap) then multiset(rows)[row] else 0
  {
    if |rows| == 0 then []
    else
      assert rows == [rows[0]] + rows[1..];
      (if f(rows[0], cmap) then [rows[0]] else []) + KeepRows(rows[1..], cmap, f)
  }

  /**
    Keeps the header and the data rows that pass `f`, in their original order.
    The column index handed to `f` is built once, from the header.
   */
  function Filter(m: Table, f: RowPredicate): (r: Table)
    requires |m| > 0
    ensures |r| >= 1 && r[0] == m[0]
    ensures forall row :: row in r[1..] ==> f(row, Colmap(m))
    ensures forall row :: multiset(r[1..])[row] == if f(row, Colmap(m)) then multiset(m[1..])[row] else 0
  {
    [m[0]] + KeepRows(m[1..], Colmap(m), f)
  }

  /** Filtering splits over concatenation, so kept rows stay in their original relative order. */
  lemma {:induction false} KeepRowsConcat(a: Table, b: Table, cmap: ColumnIndices, f: RowPredicate)
    ensures KeepRows(a + b, cmap, f) == KeepRows(a, cmap, f) + KeepRows(b, cmap, f)
  {
    if |a| == 0 {
      assert a + b == b;
    } else {
      assert (a + b)[1..] == a[1..] + b;
      KeepRowsConcat(a[1..], b, cmap, f);
    }
  }

  /** When every row passes, nothing is dropped. */
  lemma {:induction false} KeepRowsAll(rows: Table, cmap: ColumnIndices, f: RowPredicate)
    requires forall row :: row in rows ==> f(row, cmap)
    ensures KeepRows(rows, cmap, f) == rows
  {
    if |rows| > 0 {
      assert rows[0] in rows;
      assert forall row :: row in rows[1..] ==> row in rows;
      KeepRowsAll(rows[1..], cmap, f);
      assert rows == [rows[0]] + rows[1..];
    }
  }

  /** Every row of the result is a row of the input. */
  lemma {:induction false} KeepRowsSubset(rows: Table, cmap: ColumnIndices, f: RowPredicate)
    ensures forall row :: row in KeepRows(rows, cmap, f) ==> row in rows
  {
  }

  /** A predicate that every data row passes (in particular one that is always true) leaves the table as it was. */
  lemma FilterKeepsAll(m: Table, f: RowPredicate)
    requires |m| > 0
    requires forall i :: 1 <= i < |m| ==> f(m[i], Colmap(m))
    ensures Filter(m, f) == m
  {
    assert forall row :: row in m[1..] ==> f(row, Colmap(m));
    KeepRowsAll(m[1..], Colmap(m), f);
    assert m == [m[0]] + m[1..];
  }

  /** Filtering twice with one predicate equals filtering once. */
  lemma FilterIdempotent(m: Table, f: RowPredicate)
    requires |m| > 0
    ensures Filter(Filter(m, f), f) == Filter(m, f)
  {
    var r := Filter(m, f);
    assert Colmap(r) == Colmap(m);
    assert r[1..] == KeepRows(m[1..], Colmap(m), f);
    KeepRowsAll(r[1..], Colmap(m), f);
    assert r == [r[0]] + r[1..];
  }

  /** Filtering a rectangular table gives a rectangular table with the same header. */
  lemma FilterRectangular(m: Table, f: RowPredicate)
    requires |m| > 0 && Rectangular(m)
    ensures Rectangular(Filter(m, f))
  {
    var r := Filter(m, f);
    KeepRowsSubset(m[1..], Colmap(m), f);
    forall i | 0 <= i < |r|
      ensures |r[i]| == |r[0]|
    {
      if i > 0 {
        assert r[i] in r[1..];
      }
    }
  }

  /**
    Filtering an appended table equals appending the filtered tables, when
    both share one header: the kept rows of the first table come first, each
    part in its own order.
   */
  lemma FilterDistributesOverAppend(a: Table, b: Table, f: RowPredicate)
    requires |a| > 0 && |b| > 0 && a[0] == b[0]
    ensures Concat.Append(a, b).Success?
    ensures Concat.Append(Filter(a, f), Filter(b, f)).Success?
    ensures Filter(Concat.Append(a, b).value, f) == Concat.Append(Filter(a, f), Filter(b, f)).value
  {
    var ab := Concat.Append(a, b).value;
    var c := Colmap(a);
    assert ab[0] == a[0] && ab[1..] == a[1..] + b[1..];
    ColmapOfHeader(ab, a);
    ColmapOfHeader(b, a);
    var fa := Filter(a, f);
    var fb := Filter(b, f);
    calc {
      Filter(ab, f);
      [a[0]] + KeepRows(a[1..] + b[1..], c, f);
      { KeepRowsConcat(a[1..], b[1..], c, f); }
      [a[0]] + (KeepRows(a[1..], c, f) + KeepRows(b[1..], c, f));
      { Tables.ConcatAssociative([a[0]], KeepRows(a[1..], c, f), KeepRows(b[1..], c, f)); }
      ([a[0]] + KeepRows(a[1..], c, f)) + KeepRows(b[1..], c, f);
      { assert fb[1..] == KeepRows(b[1..], c, f); }
      fa + fb[1..];
    }
  }

}

=== FILE: join.dfy ===
/** Left outer join of two tables on their key column 0. */
module Join {
  import opened Tables

  /** Key column of a sequence of rows. */
  function Keys(rows: Table): seq<string>
    requires forall i :: 0 <= i < |rows| ==> |rows[i]| >= 1
  {
    seq(|rows|, i requires 0 <= i < |rows| => rows[i][0])
  }

  /** Non-key fields of each of a sequence of rows. */
  function Tails(rows: Table): seq<Row>
    requires forall i :: 0 <= i < |rows| ==> |rows[i]| >= 1
  {
    seq(|rows|, i requires 0 <= i < |rows| => rows[i][1..])
  }

  /**
    Reference for the lookup: the index of the last data row of `t` whose key
    is `key`, or 0 (the header's index) when no data row has that key.
   */
  function LastKeyRow(t: Table, key: string): (j: nat)
    requires KeyedData(t)
    ensures j == 0 || j < |t|
    ensures j > 0 ==> t[j][0] == key && forall l :: j < l < |t| ==> t[l][0] != key
    ensures j == 0 ==> forall l :: 1 <= l < |t| ==> t[l][0] != key
  {
    if |t| <= 1 then 0
    else if t[|t| - 1][0] == key then |t| - 1
    else LastKeyRow(t[..|t| - 1], key)
  }

  /** The lookup the join builds from the right table's data rows: key to non-key fields. */
  function KeyIndex(right: Table): (k: map<string, Row>)
    requires |right| > 0 && KeyedData(right)
    ensures forall key :: key in k <==> LastKeyRow(right, key) > 0
    ensures forall key :: key in k ==> k[key] == right[LastKeyRow(right, key)][1..]
  {
    KeyIndexSpec(right);
    LastWins(Keys(right[1..]), Tails(right[1..]))
  }

  /** The last-write-wins map over the key column finds what the reference scan finds. */
  lemma KeyIndexSpec(right: Table)
    requires |right| > 0 && KeyedData(right)
    ensures var k := LastWins(Keys(right[1..]), Tails(right[1..]));
            forall key :: (key in k <==> LastKeyRow(right, key) > 0) &&
                          (key in k ==> k[key] == right[LastKeyRow(right, key)][1..])
  {
    forall key {
      LastKeyRowIsLastIndex(right, key);
    }
  }

  /** The reference scan and the last-write position in the key column agree. */
  lemma {:induction false} LastKeyRowIsLastIndex(t: Table, key: string)
    requires |t| > 0 && KeyedData(t)
    ensures LastKeyRow(t, key) == LastIndexOf(Keys(t[1..]), key) + 1
  {
    if |t| > 1 {
      var keys := Keys(t[1..]);
      var n := |t| - 1;
      assert keys[n - 1] == t[n][0];
      if t[n][0] != key {
        LastKeyRowIsLastIndex(t[..n], key);
        assert Keys(t[..n][1..]) == keys[..n - 1];
      }
    }
  }

  /** Reference for what a left data row with key `key` gains from the join. */
  function JoinedFields(right: Table, key: string): Row
    requires |right| > 0 && |right[0]| >= 1 && KeyedData(right)
  {
    var j := LastKeyRow(right, key);
    if j > 0 then right[j][1..] else Blank(|right[0]| - 1)
  }

  /** The looked-up row `i` of a join is the row followed by its reference fields. */
  lemma JoinRowIs(rows: Table, right: Table, k: map<string, Row>, i: nat)
    requires |right| > 0 && |right[0]| >= 1 && KeyedData(right)
    requires k == KeyIndex(right)
    requires forall a :: 0 <= a < |rows| ==> |rows[a]| >= 1
    requires i < |rows|
    ensures JoinRows(rows, k, Blank(|right[0]| - 1))[i] == rows[i] + JoinedFields(right, rows[i][0])
  {
  }

  /** Each row extended by the looked-up fields of its key, or by `filler` when the key is absent. */
  function JoinRows(rows: Table, k: map<string, Row>, filler: Row): (r: Table)
    requires forall i :: 0 <= i < |rows| ==> |rows[i]| >= 1
    ensures |r| == |rows|
    ensures forall i :: 0 <= i < |rows| ==>
              r[i] == rows[i] + (if rows[i][0] in k then k[rows[i][0]] else filler)
  {
    if |rows| == 0 then []
    else
      var i := |rows| - 1;
      JoinRows(rows[..i], k, filler) + [rows[i] + (if rows[i][0] in k then k[rows[i][0]] else filler)]
  }

  /**
    Left outer join on column 0. The header gains the right header's non-key
    names. A data row whose key occurs in the right table's data rows gains the
    non-key fields of the last such right row; any other data row gains one
    blank field per non-key column of the right header.
   */
  function LeftJoin(m: Table, right: Table): (r: Table)
    requires |m| > 0 && |right| > 0 && |right[0]| >= 1
    requires KeyedData(m) && KeyedData(right)
    ensures |r| == |m|
    ensures r[0] == m[0] + right[0][1..]
    ensures forall i :: 1 <= i < |m| && LastKeyRow(right, m[i][0]) > 0 ==>
              r[i] == m[i] + right[LastKeyRow(right, m[i][0])][1..]
    ensures forall i :: 1 <= i < |m| && LastKeyRow(right, m[i][0]) == 0 ==>
              r[i] == m[i] + Blank(|right[0]| - 1)
  {
    LeftJoinRowsSpec(m, right);
    [m[0] + right[0][1..]] + JoinRows(m[1..], KeyIndex(right), Blank(|right[0]| - 1))
  }

  /** Data row `i` of the join is left row `i` followed by its reference fields. */
  lemma LeftJoinRowsSpec(m: Table, right: Table)
    requires |m| > 0 && |right| > 0 && |right[0]| >= 1
    requires KeyedData(m) && KeyedData(right)
    ensures var rows := JoinRows(m[1..], KeyIndex(right), Blank(|right[0]| - 1));
            forall i :: 1 <= i < |m| ==> rows[i - 1] == m[i] + JoinedFields(right, m[i][0])
  {
    var rows := JoinRows(m[1..], KeyIndex(right), Blank(|right[0]| - 1));
    forall i | 1 <= i < |m|
      ensures rows[i - 1] == m[i] + JoinedFields(right, m[i][0])
    {
      JoinRowIs(m[1..], right, KeyIndex(right), i - 1);
    }
  }

  /** Joining rectangular tables gives a rectangular table as wide as both headers less one key column. */
  lemma LeftJoinRectangular(m: Table, right: Table)
    requires |m| > 0 && |m[0]| >= 1 && Rectangular(m)
    requires |right| > 0 && |right[0]| >= 1 && Rectangular(right)
    ensures Rectangular(LeftJoin(m, right))
    ensures |LeftJoin(m, right)[0]| == |m[0]| + |right[0]| - 1
  {
  }

  /**
    With keys unique among the right table's data rows, a left row whose key
    is that of right row j gains exactly right row j's non-key fields, and a
    left row whose key is absent gains blanks.
   */
  lemma LeftJoinUniqueKeys(m: Table, right: Table, i: nat, j: nat)
    requires |m| > 0 && |right| > 0 && |right[0]| >= 1
    requires KeyedData(m) && KeyedData(right)
    requires forall a, b :: 1 <= a < b < |right| ==> right[a][0] != right[b][0]
    requires 1 <= i < |m| && 1 <= j < |right|
    ensures m[i][0] == right[j][0] ==> LeftJoin(m, right)[i] == m[i] + right[j][1..]
    ensures (forall l :: 1 <= l < |right| ==> right[l][0] != m[i][0]) ==>
              LeftJoin(m, right)[i] == m[i] + Blank(|right[0]| - 1)
  {
    var r := LeftJoin(m, right);
    var l := LastKeyRow(right, m[i][0]);
    if m[i][0] == right[j][0] {
      assert l > 0;
      assert l == j;
      assert r[i] == m[i] + right[l][1..];
    } else if l == 0 {
      assert r[i] == m[i] + Blank(|right[0]| - 1);
    }
  }

}

=== FILE: results.dfy ===
/** The outcome of an operation that can fail with a recoverable error value. */
module Results {

  datatype Result<+T, +E> = Success(value: T) | Failure(error: E)

}

=== FILE: selection.dfy ===
/** Projection of a table onto named columns, in the requested order. */
module Selection {
  import opened Results
  import opened Tables
  import Concat
  import Filtering
  import Equality

  /** The first requested name that the header does not hold. */
  datatype SelectError = ColumnNotFound(name: string)

  /**
    Resolves each requested name, front to back, to its first position in the
    header, stopping at the first name the header lacks.
   */
  function Resolve(header: Row, columns: seq<string>): (r: Result<seq<nat>, SelectError>)
    ensures r.Success? <==> forall c :: c in columns ==> c in header
    ensures r.Success? ==>
              && |r.value| == |columns|
              && forall k :: 0 <= k < |columns| ==> r.value[k] == FirstIndexOf(header, columns[k])
    ensures r.Failure? ==>
              && r.error.name in columns
              && r.error.name !in header
              && forall k :: 0 <= k < FirstIndexOf(columns, r.error.name) ==> columns[k] in header
  {
    if |columns| == 0 then Success([])
    else
      var j := FirstIndexOf(header, columns[0]);
      if j < 0 then Failure(ColumnNotFound(columns[0]))
      else
        match Resolve(header, columns[1..])
        case Failure(e) =>
          assert forall c :: c in columns[1..] ==> c in columns;
          assert FirstIndexOf(columns, e.name) == FirstIndexOf(columns[1..], e.name) + 1;
          Failure(e)
        case Success(rest) =>
          assert forall c :: c in columns ==> c == columns[0] || c in columns[1..];
          Success([j] + rest)
  }

  /** The fields of `row` at `indices`, in that order, filled in one index at a time. */
  function Project(row: Row, indices: seq<nat>): (r: Row)
    requires forall k :: 0 <= k < |indices| ==> indices[k] < |row|
    ensures |r| == |indices|
    ensures forall k :: 0 <= k < |indices| ==> r[k] == row[indices[k]]
  {
    if |indices| == 0 then []
    else
      var n := |indices| - 1;
      Project(row, indices[..n]) + [row[indices[n]]]
  }

  /**
    The table holding only the requested columns, in the requested order; a
    name may be requested more than once. Each name stands for the FIRST
    header column of that name. Any name the header lacks fails the whole call.
   */
  function Select(m: Table, columns: seq<string>): (r: Result<Table, SelectError>)
    requires |m| > 0 && WideRows(m)
    ensures r.Failure? <==> exists c :: c in columns && c !in m[0]
    ensures r.Failure? ==>
              && r.error.name in columns
              && r.error.name !in m[0]
              && forall k :: 0 <= k < FirstIndexOf(columns, r.error.name) ==> columns[k] in m[0]
    ensures r.Success? ==> |r.value| == |m| && r.value[0] == columns
    ensures r.Success? ==> forall i :: 1 <= i < |m| ==> |r.value[i]| == |columns|
    ensures r.Success? ==> forall i, k :: 1 <= i < |m| && 0 <= k < |columns| ==>
              r.value[i][k] == m[i][FirstIndexOf(m[0], columns[k])]
  {
    match Resolve(m[0], columns)
    case Failure(e) => Failure(e)
    case Success(indices) =>
      var rows := seq(|m| - 1, i requires 0 <= i < |m| - 1 => Project(m[i + 1], indices));
      Success([columns] + rows)
  }

  /** A successful selection is rectangular, however ragged the data rows beyond the header width. */
  lemma SelectRectangular(m: Table, columns: seq<string>)
    requires |m| > 0 && WideRows(m)
    ensures Select(m, columns).Success? ==> Rectangular(Select(m, columns).value)
  {
  }

  /** In a header without repeated names, the position of its k-th name is k. */
  lemma FirstIndexOfDistinct(header: Row, k: nat)
    requires Distinct(header) && k < |header|
    ensures FirstIndexOf(header, header[k]) == k
  {
  }

  /**
    A table that has the requested names as header and, in every data row, the
    cell of the first matching header column, is what Select returns.
   */
  lemma SelectIs(m: Table, columns: seq<string>, expected: Table)
    requires |m| > 0 && WideRows(m)
    requires forall c :: c in columns ==> c in m[0]
    requires |expected| == |m| && expected[0] == columns
    requires forall i :: 1 <= i < |m| ==> |expected[i]| == |columns|
    requires forall i, k :: 1 <= i < |m| && 0 <= k < |columns| ==>
               expected[i][k] == m[i][FirstIndexOf(m[0], columns[k])]
    ensures Select(m, columns) == Success(expected)
  {
    var r := Select(m, columns);
    assert r.Success?;
    var v := r.value;
    assert |v| == |expected| && v[0] == expected[0];
    forall i | 1 <= i < |m|
      ensures v[i] == expected[i]
    {
      assert |v[i]| == |expected[i]|;
      forall k | 0 <= k < |columns|
        ensures v[i][k] == expected[i][k]
      {
        var j := FirstIndexOf(m[0], columns[k]);
        assert v[i][k] == m[i][j];
        assert expected[i][k] == m[i][j];
      }
    }
    assert forall i :: 0 <= i < |v| ==> v[i] == expected[i];
    assert v == expected;
    assert r == Success(v);
  }

  /** Selecting every header name in header order reproduces a rectangular table whose names are distinct. */
  lemma SelectHeaderIdentity(m: Table)
    requires |m| > 0 && Rectangular(m) && Distinct(m[0])
    ensures Select(m, m[0]) == Success(m)
  {
    forall k | 0 <= k < |m[0]|
      ensures FirstIndexOf(m[0], m[0][k]) == k
    {
      FirstIndexOfDistinct(m[0], k);
    }
    SelectIs(m, m[0], m);
  }

  /** Selecting the header names back to front reverses every row of such a table. */
  lemma SelectReversed(m: Table)
    requires |m| > 0 && Rectangular(m) && Distinct(m[0])
    ensures Select(m, Reverse(m[0])) == Success(seq(|m|, i requires 0 <= i < |m| => Reverse(m[i])))
  {
    var h := m[0];
    var columns := Reverse(h);
    var expected := seq(|m|, i requires 0 <= i < |m| => Reverse(m[i]));
    forall k | 0 <= k < |h|
      ensures FirstIndexOf(h, columns[k]) == |h| - 1 - k
    {
      FirstIndexOfDistinct(h, |h| - 1 - k);
    }
    assert forall c :: c in columns ==> c in h;
    SelectIs(m, columns, expected);
  }

  /**
    With two or more distinct column names, the back-to-front selection does
    not compare equal to the front-to-back one: already their headers differ.
   */
  lemma ReversedSelectionUnequal(m: Table)
    requires |m| > 0 && Rectangular(m) && Distinct(m[0]) && |m[0]| >= 2
    ensures !Equality.SameFields(Select(m, m[0]).value, Select(m, Reverse(m[0])).value)
  {
  }

  /**
    For a rectangular receiver with distinct header names, selecting its
    header after AddColumns drops the added columns again, whatever names
    they carry: the receiver's columns come first, and the first match wins.
   */
  lemma SelectAfterAddColumns(m: Table, columns: Table)
    requires |m| > 0 && Rectangular(m) && Distinct(m[0])
    requires |columns| > 0 && Rectangular(columns)
    ensures WideRows(Concat.AddColumns(m, columns))
    ensures Select(Concat.AddColumns(m, columns), m[0]) == Success(m)
  {
    Concat.AddColumnsShape(m, columns);
    var t := Concat.AddColumns(m, columns);
    var h := m[0];
    forall k | 0 <= k < |h|
      ensures t[0][k] == h[k]
      ensures FirstIndexOf(t[0], h[k]) == k
    {
      assert t[0][..|h|] == h;
      FirstIndexOfDistinct(h, k);
    }
    forall i, k | 1 <= i < |m| && 0 <= k < |h|
      ensures t[i][k] == m[i][k]
    {
      assert t[i][..|m[i]|] == m[i];
    }
    SelectIs(t, h, m);
  }

  /**
    On a header without repeated names, Colmap and Select resolve every name to
    the same column; with a repeated name they part ways (last versus first).
   */
  lemma ColmapAgreesWithSelect(m: Table, name: string)
    requires |m| > 0 && Distinct(m[0]) && name in m[0]
    ensures name in Filtering.Colmap(m)
    ensures Filtering.Colmap(m)[name] == FirstIndexOf(m[0], name)
  {
  }

}

=== FILE: tables.dfy ===
/**
  A table is a sequence of rows of text fields. Row 0 is the header naming the
  columns; rows 1.. are the data rows. Nothing in the type forces the rows to
  have one width: `Rectangular` states that convention, and each operation says
  how it relates to it.
 */
module Tables {

  type Row = seq<string>
  type Table = seq<Row>

  /** Column name to zero-based column position, as built from a header. */
  type ColumnIndices = map<string, int>

  /** Every row has the header's width. The empty table qualifies vacuously. */
  predicate Rectangular(t: Table) {
    forall i :: 0 <= i < |t| ==> |t[i]| == |t[0]|
  }

  /** Every data row is at least as wide as the header. */
  predicate WideRows(t: Table)
    requires |t| > 0
  {
    forall i :: 1 <= i < |t| ==> |t[i]| >= |t[0]|
  }

  /** Every data row has a field in the key column 0. */
  predicate KeyedData(t: Table) {
    forall i :: 1 <= i < |t| ==> |t[i]| >= 1
  }

  /** n blank fields: what a freshly made string slice of length n holds. */
  function Blank(n: nat): Row {
    seq(n, _ => "")
  }

  /** No value occurs twice in s. */
  predicate Distinct<T(==)>(s: seq<T>) {
    forall i, j :: 0 <= i < j < |s| ==> s[i] != s[j]
  }

  function Reverse<T>(s: seq<T>): seq<T> {
    seq(|s|, k requires 0 <= k < |s| => s[|s| - 1 - k])
  }

  /**
    Concatenation regroups freely. Stated on its own as a solver hint: where
    the operands carry heavy contracts (the calc in
    Filtering.FilterDistributesOverAppend), the solver does not find it unaided.
   */
  lemma ConcatAssociative<T>(x: seq<T>, y: seq<T>, z: seq<T>)
    ensures x + (y + z) == (x + y) + z
  {
  }

  /** Scan s from the front and stop at the first x: its position, or -1 when x does not occur. */
  function FirstIndexOf<T(==)>(s: seq<T>, x: T): (k: int)
    ensures -1 <= k < |s|
    ensures k < 0 <==> x !in s
    ensures 0 <= k ==> s[k] == x && forall j :: 0 <= j < k ==> s[j] != x
  {
    if |s| == 0 then -1
    else if s[0] == x then 0
    else
      var k := FirstIndexOf(s[1..], x);
      if k < 0 then -1 else k + 1
  }

  /** Position of the last occurrence of x in s, or -1 when x does not occur. */
  function LastIndexOf<T(==)>(s: seq<T>, x: T): (k: int)
    ensures -1 <= k < |s|
    ensures k < 0 <==> x !in s
    ensures 0 <= k ==> s[k] == x && forall j :: k < j < |s| ==> s[j] != x
  {
    if |s| == 0 then -1
    else if s[|s| - 1] == x then |s| - 1
    else LastIndexOf(s[..|s| - 1], x)
  }

  /**
    The map that the assignments `k[keys[i]] = vals[i]`, for i = 0, 1, ... in
    turn, leave behind: a key that occurs more than once keeps the value paired
    with its last occurrence.
   */
  function LastWins<V>(keys: seq<string>, vals: seq<V>): (k: map<string, V>)
    requires |keys| == |vals|
    ensures k.Keys == set x | x in keys
    ensures forall x :: x in k ==> k[x] == vals[LastIndexOf(keys, x)]
  {
    if |keys| == 0 then map[]
    else
      var n := |keys| - 1;
      LastWins(keys[..n], vals[..n])[keys[n] := vals[n]]
  }

}
